=== FILE: README.md ===
# Final-frame video monitor — a verified model

`test.py` drives a Chrome session and injects a monitoring script (the JavaScript
string at `test.py:31-233`). The script finds a container element. It derives a unique
key for a video from its `src` attribute. It queues every `<video>` under the container
that has a non-empty `src` whose key `localStorage` does not already hold (as
`processed_video_<key>`), and does the same for every video that a `MutationObserver`
later reports as added. A single loop then processes the queue. For each video the loop
derives the key again and skips the video if `localStorage` now holds it. Otherwise it pauses the video, seeks to the end, draws the
frame on a canvas and downloads it as `final_frame_<key>.png`. Then it records the key
with a timestamp. The key is recorded whether or not the capture produced an image.

This project models that script in Dafny:

- `wrappers.dfy` (`Wrappers`): `Option`.
- `json_value.dfy` (`JsonValue`): the value `JSON.parse` yields. It also holds the two
  JavaScript rules the script relies on: truthiness (`obj.location &&
  obj.location.access_hash`) and `String()` conversion. Every use of the key that
  affects behaviour is a string concatenation (the ledger lookup and write, the file
  name), so what matters is the key's text. The conversion is partial:
  it throws for an object with its own `toString` field, and for an array holding one.
- `key_derivation.dfy` (`KeyDerivation`): key derivation and the download file name.
  Decoding plus parsing is a parameter `parse: string -> Option<Json>`. It returns `None`
  where `decodeURIComponent` or `JSON.parse` would throw. `DeriveKey` gives the raw key
  value (the `src` string or the parsed hash); `KeyText` gives its text, or `None` where
  converting it throws.
- `dedup_ledger.dfy` (`DedupLedger`): the `processed_video_*` entries, as a map from key
  to timestamp.
- `monitor_spec.dfy` (`MonitorSpec`): the script as a pure state machine. It covers the
  enqueue filter, `processQueue`, `processVideoElement` (split at its `await`), the
  capture outcome, and any schedule of these events. It also holds the invariant and the
  at-most-once and FIFO theorems. The state machine takes the key text as a function
  `keyText: KeyFn` of the source; the class passes `KeyTextOf(parse)`, which is
  `KeyText` for its parser.
- `video_monitor.dfy` (`VideoMonitor`): the class `Monitor`. It has the fields the script
  mutates (`videoQueue`, the ledger, `isProcessing`) and a method per operation. Each
  method is proved to follow the matching `MonitorSpec` function and to keep its invariant.

The DOM is reduced to node identities and a snapshot of their `src` attributes. The
snapshot is passed to each step, because the script reads `getAttribute("src")` again
when it processes an element. A capture that never settles is a schedule in which the
`Settled` event for it never comes. In that case the loop waits forever, because the
script sets no timeout.

Points where the script's behaviour is easy to misread:
- The queue may hold the same element or key twice. Nothing checks the queue's contents
  before `push`, and the ledger check made at enqueue time does not see keys recorded
  while the element waits in the queue. At-most-once extraction still holds, because the
  ledger is checked again at `test.py:80`.
- Marking a key overwrites its timestamp (`setItem`). It is not a no-op. The code only
  marks keys it found absent, so the difference cannot be observed.
- A failed capture is still marked processed (`test.py:124-129`). The model keeps this
  accepted-loss behaviour.
- There is no timeout on readiness or seeking.
- The key keeps the parsed hash's own type (`test.py:72`), and it is converted to text
  only when it is concatenated, outside the `try`. An object hash with its own
  `toString` field (or an array holding such an object) makes that conversion throw a
  TypeError. In the initial scan (`test.py:225`) the exception leaves the script before
  `processQueue()` at `test.py:232`, so the loop never starts. The observer is already
  connected and keeps queueing, but nothing is ever processed. In an observer callback
  (`test.py:170`, `194`) the rest of that batch is dropped. At `test.py:80` it rejects
  `processVideoElement`, and through the `await` at `test.py:139` the loop itself: the
  element has been shifted, `isProcessing` stays set, and no element is processed
  again.

## Model

| member | source | states |
|---|---|---|
| JsonValue.Member | test.py:71-72 | reading `location` or `access_hash` from a non-null value finds an object's own field of that name, and nothing on any other value, since no value `JSON.parse` produces inherits either name |
| JsonValue.NatToDecimal | test.py:80 | the decimal text of a number is non-empty, all digits, without a leading zero, and its digits denote that number |
| JsonValue.IntToDecimal | test.py:80 | the text of an integer starts with "-" exactly when it is negative, and the digits after the sign denote its magnitude, without a leading zero |
| JsonValue.IntToDecimalInjective | test.py:80 | different numeric hashes never give the same key text |
| JsonValue.ToJsStringOfScalars | test.py:72 | a string hash is its own key text; a number converts to its decimal text; booleans and null convert as JavaScript does |
| JsonValue.TruthyNonArrayIsNonEmpty | test.py:71-72 | no truthy hash other than an array gives the empty key text |
| JsonValue.EmptyArraysConvertToEmpty | test.py:71-72 | `[]` and `[null]` pass the truthiness test but give the empty key |
| JsonValue.JoinFailsWithElement | test.py:80 | joining an array throws as soon as one of its elements fails to convert |
| JsonValue.ArrayWithToStringFieldThrows | test.py:80 | an array hash holding an object with its own "toString" field cannot be converted to a key text |
| KeyDerivation.Payload | test.py:67 | the text after "stream/" is what, prefixed with "stream/", makes up `src` |
| KeyDerivation.AccessHash | test.py:70-73 | a hash is found exactly when the payload is an object with a truthy `location` object holding a truthy `access_hash`, and the hash is that value |
| KeyDerivation.DeriveKey | test.py:63-77 | a non-stream source is its own key; an undecodable or unparsable payload falls back to `src`; a parsed payload gives its access hash, with its JSON type, or without one `src`; a non-empty source gives a truthy key |
| KeyDerivation.KeyText | test.py:80 | a non-stream source is its own key text; converting the key can throw only for a stream source whose key is a parsed hash |
| KeyDerivation.StreamKeyIsAccessHash | test.py:66-73 | a stream source whose payload has an object `location` holding a non-empty string hash has that hash as its key and key text, whatever other fields the payload carries |
| KeyDerivation.PlainSourceIsItsOwnKey | test.py:65-66 | a source not starting with "stream/" is its own key and its own key text |
| KeyDerivation.NumericAndStringHashesCollide | test.py:71-72 | the hashes 42 and "42" are different key values with the same key text "42" |
| KeyDerivation.ToStringFieldKeyHasNoText | test.py:72 | a stream payload whose hash is an object with its own "toString" field gives that object as the key, and the key has no text |
| KeyDerivation.FileName | test.py:106 | the download name is "final_frame_", then the key, then ".png" |
| KeyDerivation.KeyOfFileName | test.py:106 | a name read back as a key is the name of that key |
| KeyDerivation.FileNameRoundTrip | test.py:106 | the key can be read back from its download name |
| KeyDerivation.FileNameInjective | test.py:106 | distinct keys are saved under distinct names |
| DedupLedger.EntryName | test.py:80 | the storage item of a key is "processed_video_" followed by the key |
| DedupLedger.EntryNameInjective | test.py:80 | distinct keys use distinct storage items, so the ledger can be keyed by key |
| DedupLedger.MarkProcessed | test.py:129 | after marking, the key is present with the given time, and every other entry is unchanged |
| DedupLedger.MarkTwice | test.py:129 | marking twice keeps the membership of marking once; the later timestamp wins |
| MonitorSpec.Admit | test.py:209-229 | one pass pushes no more elements than it visits |
| MonitorSpec.BeforeThrow | test.py:209-229 | a pass handles a prefix of its videos, and when it stops early the next video is one whose key conversion throws |
| MonitorSpec.HandledDoNotThrow | test.py:209-229 | no video a pass handles throws |
| MonitorSpec.StartQueue | test.py:133-135 | after `processQueue()` the loop runs; a call while it runs changes nothing |
| MonitorSpec.AdmitAppend | test.py:209-229 | a filter over two lists pushes the first list's pushes, then the second's, in order |
| MonitorSpec.BeforeThrowAppend | test.py:150-203 | a pass over two lists handles all of the first and then the second's handled prefix, or stops within the first |
| MonitorSpec.ThrowsInAppend | test.py:150-203 | a pass over two lists throws exactly when a pass over either one does |
| MonitorSpec.EnqueueOne | test.py:170-172 | a pass over one video throws exactly when its key conversion does, and pushes it exactly when it has a source and an unrecorded key |
| MonitorSpec.EnqueueStopsAtThrow | test.py:150-203 | once the first part of a pass throws, the rest pushes nothing |
| MonitorSpec.EnqueueConcat | test.py:150-203 | after a first part that does not throw, a pass composes with the pass over the rest, and throws exactly when the rest does |
| MonitorSpec.EnqueueThrowsMidway | test.py:178-198 | a pass that throws within a middle part pushes what the part before and that part push, and never reaches what follows |
| MonitorSpec.AddedVideosStopAtThrow | test.py:151-202 | once the videos of the first added nodes throw, later added nodes of the record push nothing |
| MonitorSpec.MutationVideosStopAtThrow | test.py:150-203 | once the videos of the first records throw, later records of the batch push nothing |
| MonitorSpec.AdmitMembers | test.py:170-172 | an element is pushed if and only if it was visited, has a source and its key text is not in the ledger |
| MonitorSpec.AdmitCount | test.py:209-229 | of N videos with sources and convertible keys, M of them already in the ledger, exactly N - M are pushed |
| MonitorSpec.ScanCount | test.py:209-229 | the initial scan queues N - M of the N videos it handles, M of them recorded, and handles them all when no key throws |
| MonitorSpec.DuplicateReportsArePushedTwice | test.py:170-172 | an element reported twice is queued twice, because the queue's contents are not checked |
| MonitorSpec.NoSourceIsIgnored | test.py:64 | a video with no `src` or an empty one is never pushed, extracted or marked |
| MonitorSpec.ProcessedKeyIsSkipped | test.py:79-83 | an element whose key is in the ledger is not paused, extracted, saved or marked |
| MonitorSpec.SettleMarksEitherWay | test.py:99-129 | when the capture settles, the key is marked with the current time whether or not a blob was produced; a file is saved only if there was a blob |
| MonitorSpec.InitInv | test.py:52-53 | a fresh session satisfies the invariant |
| MonitorSpec.EnqueueKeepsInv | test.py:170-172 | a filtered push keeps the invariant |
| MonitorSpec.StartQueueKeepsInv | test.py:133-135 | starting the loop keeps the invariant |
| MonitorSpec.NextKeepsInv | test.py:136-139 | shifting the head and beginning its extraction, or dying on it, keeps the invariant, including no repeated extraction |
| MonitorSpec.SettleKeepsInv | test.py:124-129 | downloading and then marking keeps the invariant, including no repeated download |
| MonitorSpec.ApplyKeepsInv | test.py:136-145 | every event keeps the invariant |
| MonitorSpec.RunKeepsInv | test.py:136-145 | every schedule of events keeps the invariant |
| MonitorSpec.ActivatedInv | test.py:209-232 | the session after the initial scan, and the first `processQueue()` when the scan did not throw, satisfies the invariant |
| MonitorSpec.AtMostOnceInArrivalOrder | test.py:61-146 | under any schedule, each key is extracted and saved at most once, keys recorded before activation are never extracted, and elements leave the queue in arrival order |
| MonitorSpec.LedgerEntriesPersist | test.py:128-129 | a ledger entry is never removed and never rewritten |
| MonitorSpec.StalledStaysStalled | test.py:133-145 | a loop that never started or has died, and awaits nothing, never takes, extracts, saves or marks anything again |
| MonitorSpec.FailedScanNeverProcesses | test.py:209-232 | when the initial scan throws, the loop never starts and, under any schedule, nothing is served, extracted, saved or recorded |
| MonitorSpec.UnconvertibleHeadHaltsLoop | test.py:80 | the loop shifting an element whose key cannot be converted dies with nothing extracted or marked, and no later event serves, extracts, saves or marks anything |
| MonitorSpec.OneFreshVideo | test.py:61-139 | one video with a convertible key on an empty ledger: one iteration and a captured blob record exactly that key and save exactly the file named after it |
| MonitorSpec.SingleStreamVideo | test.py:61-139 | one stream video with access hash "abc123": one iteration and a captured blob record "abc123" and save exactly final_frame_abc123.png |
| MonitorSpec.DuplicateRecordsQueueTwice | test.py:149-172 | two mutation records adding the same video queue it twice |
| MonitorSpec.DuplicateNotification | test.py:61-172 | a video reported twice is extracted once, saved once and recorded once with the first timestamp |
| VideoMonitor.Monitor.constructor | test.py:52-53 | a session starts with an empty queue, the loop stopped, and the stored ledger |
| VideoMonitor.Monitor.EnqueueIfNew | test.py:155-172 | reports a throw exactly when the key conversion throws, pushes the video exactly when the filter admits it, and keeps the invariant |
| VideoMonitor.Monitor.EnqueueAll | test.py:209-229 | the `forEach` pushes exactly the admitted videos, in document order, up to the first that throws, and reports whether one did |
| VideoMonitor.Monitor.OnAddedNode | test.py:151-200 | a video node is considered itself, another element through its descendant videos, and any other node not at all |
| VideoMonitor.Monitor.OnAddedNodes | test.py:151-202 | one record's added nodes are handled in order until a key throws, and the throw is reported |
| VideoMonitor.Monitor.OnMutations | test.py:149-204 | the observer callback pushes the admitted videos of all records, in order, and drops the rest of the batch after a throw |
| VideoMonitor.Monitor.ProcessQueue | test.py:133-135 | reports whether it started the loop; a second call changes nothing |
| VideoMonitor.Monitor.ProcessVideoElement | test.py:61-89 | an element with no source or a known key is left alone; an unconvertible key throws with nothing changed; otherwise its key becomes the extraction in flight |
| VideoMonitor.Monitor.RunIteration | test.py:136-144 | the loop shifts the queue's head and begins it, dies on an unconvertible key, or only waits on an empty queue, and keeps the invariant |
| VideoMonitor.Monitor.CaptureSettled | test.py:99-129 | a blob is downloaded under the key's file name; blob or not, the key is then marked; the invariant is kept |
| VideoMonitor.Activate | test.py:45-232 | with no container nothing is created; otherwise the initial scan runs, and the loop starts exactly when the scan did not throw |

## Left out

- Selenium and Chrome setup, navigation, the `readyState` wait, the keep-alive loop and `driver.quit()` (`test.py:1-25`, `235-265`). These are browser plumbing.
- The XPath lookup of the container. It is an `Option` argument of `Activate`.
- How the `MutationObserver` is registered, and the fact that its callbacks run as microtasks. Only their effect per added node is modelled. Node removals are ignored, as in the script.
- Readiness events, seeking, `drawImage`, `toBlob` and the anchor-click download. These are media and graphics calls. They reduce to "a blob or no blob" (`CaptureSettled`) or "never settles" (no event).
- The internals of `decodeURIComponent` and `JSON.parse`. They are the abstract parameter `parse`.
- The 3 s and 1 s `setTimeout` delays and the clock. Each loop iteration is one event, and `Date.now()` is the `now` argument. Pacing is not modelled.
- Interleaving granularity. The script's first loop iteration runs synchronously during activation. The model makes it a separate event that may come after observer callbacks. This admits more schedules than the script can produce.
- Failure to write to storage. A `setItem` that throws (a full quota) would end `processQueue`. This case is not modelled.
- JSON numbers. They are modelled as integers printed in plain decimal. Fractions, exponent notation (magnitudes of 1e21 and above) and precision loss above 2^53 are not modelled.
- Console logging.
- The script calls `processQueue()` once, at activation. The model therefore has no event for a later call; `StartQueue` states that such a call would change nothing.
- MonitorSpec.Admit: its own contract is only a length bound. Its order, membership and count properties are the lemmas AdmitAppend, AdmitMembers and AdmitCount.

=== FILE: dedup_ledger.dfy ===
/**
 * The dedup ledger: the `localStorage` entries `"processed_video_" + key`, each
 * holding the time the video with that key was handled. An entry is read as
 * present when it exists (its value, a timestamp, is never the empty string).
 */
module DedupLedger {

  /** Key of the video -> milliseconds timestamp of its handling. */
  type Ledger = map<string, int>

  const EntryPrefix: string := "processed_video_"

  /** The storage item name under which the entry for `key` is kept. */
  function EntryName(key: string): (name: string)
    ensures EntryPrefix <= name && name[|EntryPrefix|..] == key
  {
    EntryPrefix + key
  }

  /** Entries of different keys never share a storage item. */
  lemma EntryNameInjective(a: string, b: string)
    requires EntryName(a) == EntryName(b)
    ensures a == b
  {
  }

  /** `localStorage.getItem("processed_video_" + key)` is truthy. */
  predicate IsProcessed(ledger: Ledger, key: string) {
    key in ledger
  }

  /** `localStorage.setItem("processed_video_" + key, now)`: inserts or overwrites. */
  function MarkProcessed(ledger: Ledger, key: string, now: int): (r: Ledger)
    ensures IsProcessed(r, key) && r[key] == now
    ensures r.Keys == ledger.Keys + {key}
    ensures forall k :: k in ledger && k != key ==> r[k] == ledger[k]
  {
    ledger[key := now]
  }

  /**
   * Marking is idempotent for membership; a second mark overwrites the
   * timestamp, as `setItem` does.
   */
  lemma MarkTwice(ledger: Ledger, key: string, t1: int, t2: int)
    ensures MarkProcessed(MarkProcessed(ledger, key, t1), key, t2) == MarkProcessed(ledger, key, t2)
    ensures MarkProcessed(MarkProcessed(ledger, key, t1), key, t1) == MarkProcessed(ledger, key, t1)
    ensures IsProcessed(ledger, key) ==> MarkProcessed(ledger, key, t1).Keys == ledger.Keys
  {
  }
}

=== FILE: json_value.dfy ===
/**
 * The value that `JSON.parse` produces from a decoded `src` payload, and the two
 * pieces of JavaScript semantics the monitor applies to it: truthiness (the
 * `obj.location && obj.location.access_hash` test) and conversion to a string
 * (every use of the unique key that affects behaviour is a string concatenation).
 */
module JsonValue {
  import opened Wrappers

  /** A parsed JSON value. Numbers are modelled as integers. */
  datatype Json =
    | JNull
    | JBool(b: bool)
    | JNum(n: int)
    | JStr(s: string)
    | JArr(items: seq<Json>)
    | JObj(fields: map<string, Json>)

  /** JavaScript truthiness of a parsed value: null, false, 0 and "" are falsy. */
  predicate Truthy(v: Json) {
    match v
    case JNull => false
    case JBool(b) => b
    case JNum(n) => n != 0
    case JStr(s) => s != ""
    case JArr(_) => true
    case JObj(_) => true
  }

  /**
   * Property read `v.name` on a value that is not null, for the two names the
   * script reads. No value `JSON.parse` produces inherits either name, so the read
   * finds an own field of an object, and `undefined` (None) everywhere else.
   */
  function Member(v: Json, name: string): (r: Option<Json>)
    requires !v.JNull?
    requires name == "location" || name == "access_hash"
    ensures r.Some? <==> v.JObj? && name in v.fields
    ensures r.Some? ==> r.value == v.fields[name]
  {
    match v
    case JObj(fields) => if name in fields then Some(fields[name]) else None
    case _ => None
  }

  predicate IsDigits(s: string) {
    forall i :: 0 <= i < |s| ==> '0' <= s[i] <= '9'
  }

  function DigitChar(d: nat): (c: char)
    requires d < 10
    ensures '0' <= c <= '9' && c as int - '0' as int == d
  {
    ('0' as int + d) as char
  }

  /** The number a string of decimal digits denotes, most significant digit first. */
  function DecimalValue(s: string): nat
    requires IsDigits(s)
  {
    if s == [] then 0 else DecimalValue(s[..|s| - 1]) * 10 + (s[|s| - 1] as int - '0' as int)
  }

  /** Decimal rendering of a natural number: the digits that denote it, without a leading zero. */
  function NatToDecimal(n: nat): (r: string)
    ensures |r| >= 1 && IsDigits(r)
    ensures |r| > 1 ==> r[0] != '0'
    ensures DecimalValue(r) == n
  {
    if n < 10 then [DigitChar(n)]
    else
      var prefix := NatToDecimal(n / 10);
      var r := prefix + [DigitChar(n % 10)];
      assert r[..|r| - 1] == prefix;
      r
  }

  /** `String(n)` for an integer number: a minus sign exactly for negatives, then the magnitude's digits. */
  function IntToDecimal(n: int): (r: string)
    ensures |r| >= 1
    ensures r[0] == '-' <==> n < 0
    ensures n >= 0 ==> IsDigits(r) && DecimalValue(r) == n
    ensures n < 0 ==> IsDigits(r[1..]) && DecimalValue(r[1..]) == -n
    ensures var digits := if n < 0 then r[1..] else r; |digits| > 1 ==> digits[0] != '0'
  {
    if n < 0 then
      var r := "-" + NatToDecimal(-n);
      assert r[1..] == NatToDecimal(-n);
      r
    else NatToDecimal(n)
  }

  /** Different numbers never render to the same text. */
  lemma IntToDecimalInjective(a: int, b: int)
    requires IntToDecimal(a) == IntToDecimal(b)
    ensures a == b
  {
  }

  /**
   * `String(v)`, the conversion applied when a value is concatenated to a
   * string; None when it throws. An object converts through its `toString`:
   * an own "toString" field (which JSON can only make a non-function) hides the
   * inherited one, so conversion throws a TypeError. An array is joined with ","
   * and renders its null elements as ""; it throws when an element does.
   */
  function ToJsString(v: Json): (r: Option<string>)
    decreases v
  {
    match v
    case JNull => Some("null")
    case JBool(b) => Some(if b then "true" else "false")
    case JNum(n) => Some(IntToDecimal(n))
    case JStr(s) => Some(s)
    case JArr(items) => JoinItems(v, |items|)
    case JObj(fields) => if "toString" in fields then None else Some("[object Object]")
  }

  /** The first `n` items of the array `arr`, converted and joined with ","; None when one throws. */
  function JoinItems(arr: Json, n: nat): (r: Option<string>)
    requires arr.JArr? && n <= |arr.items|
    decreases arr, 0, n
  {
    if n == 0 then Some("")
    else
      var last := arr.items[n - 1];
      var text := if last.JNull? then Some("") else ToJsString(last);
      if n == 1 then text
      else match (JoinItems(arr, n - 1), text)
        case (Some(init), Some(t)) => Some(init + "," + t)
        case _ => None
  }

  /** Strings, numbers, booleans and null convert as JavaScript's String() does. */
  lemma ToJsStringOfScalars(v: Json)
    ensures v.JStr? ==> ToJsString(v) == Some(v.s)
    ensures v.JNum? ==> ToJsString(v) == Some(IntToDecimal(v.n))
    ensures v.JBool? ==> ToJsString(v) == Some(if v.b then "true" else "false")
    ensures v.JNull? ==> ToJsString(v) == Some("null")
  {
  }

  /** Every truthy value other than an array that converts at all converts to a non-empty string. */
  lemma TruthyNonArrayIsNonEmpty(v: Json)
    requires Truthy(v) && !v.JArr?
    ensures ToJsString(v) != Some("")
  {
  }

  /** The truthy empty array converts to the empty string, as does `[null]`. */
  lemma EmptyArraysConvertToEmpty()
    ensures Truthy(JArr([])) && ToJsString(JArr([])) == Some("")
    ensures Truthy(JArr([JNull])) && ToJsString(JArr([JNull])) == Some("")
  {
  }

  /** An array whose element fails to convert fails to convert itself. */
  lemma {:induction false} JoinFailsWithElement(arr: Json, n: nat, i: nat)
    requires arr.JArr? && i < n <= |arr.items|
    requires ToJsString(arr.items[i]).None?
    ensures JoinItems(arr, n).None?
    decreases n
  {
    if i < n - 1 {
      JoinFailsWithElement(arr, n - 1, i);
    }
  }

  /** An array hash holding an object with its own "toString" field cannot be converted. */
  lemma ArrayWithToStringFieldThrows(items: seq<Json>, i: nat)
    requires i < |items| && items[i].JObj? && "toString" in items[i].fields
    ensures ToJsString(JArr(items)).None?
  {
    JoinFailsWithElement(JArr(items), |items|, i);
  }
}

=== FILE: key_derivation.dfy ===
/**
 * Unique key of a video, derived from its `src` attribute, and the name of the
 * file its final frame is saved under.
 */
module KeyDerivation {
  import opened Wrappers
  import opened JsonValue

  /** Percent-decoding followed by `JSON.parse`: None when either throws. */
  type Parser = string -> Option<Json>

  const StreamPrefix: string := "stream/"

  /** The percent-encoded payload that follows the stream prefix. */
  function Payload(src: string): (rest: string)
    requires StreamPrefix <= src
    ensures src == StreamPrefix + rest
  {
    src[|StreamPrefix|..]
  }

  /**
   * The truthy `location.access_hash` of a parsed payload, or None when the
   * payload has none. Reading `.location` of null throws inside the `try`, so a
   * null payload has none either; a falsy `location` is never read further.
   */
  function AccessHash(p: Json): (h: Option<Json>)
    ensures h.Some? ==> Truthy(h.value)
    ensures h.Some? <==>
      && p.JObj? && "location" in p.fields
      && Truthy(p.fields["location"])
      && p.fields["location"].JObj? && "access_hash" in p.fields["location"].fields
      && Truthy(p.fields["location"].fields["access_hash"])
    ensures h.Some? ==> h.value == p.fields["location"].fields["access_hash"]
  {
    if p.JNull? then None
    else match Member(p, "location")
      case None => None
      case Some(loc) =>
        if !Truthy(loc) then None
        else match Member(loc, "access_hash")
          case None => None
          case Some(hash) => if Truthy(hash) then Some(hash) else None
  }

  /**
   * The value of the unique key of a video whose `src` attribute is `src`: the
   * access hash found in a stream payload, as the parser produced it, and the
   * string `src` in every other case, including a payload that fails to decode
   * or to parse. Derivation itself never raises.
   */
  function DeriveKey(src: string, parse: Parser): (key: Json)
    ensures !(StreamPrefix <= src) ==> key == JStr(src)
    ensures StreamPrefix <= src && parse(Payload(src)).None? ==> key == JStr(src)
    ensures StreamPrefix <= src && parse(Payload(src)).Some? ==>
      key == match AccessHash(parse(Payload(src)).value)
             case Some(hash) => hash
             case None => JStr(src)
    ensures src != "" ==> Truthy(key)
  {
    if !(StreamPrefix <= src) then JStr(src)
    else match parse(Payload(src))
      case None => JStr(src)
      case Some(p) =>
        match AccessHash(p)
        case Some(hash) => hash
        case None => JStr(src)
  }

  /**
   * The text the key contributes to every string it is concatenated into (the
   * ledger entry name, the log lines, the file name); None when that conversion
   * throws. Falling back on `src` always gives text.
   */
  function KeyText(src: string, parse: Parser): (text: Option<string>)
    ensures !(StreamPrefix <= src) ==> text == Some(src)
    ensures text.None? ==> StreamPrefix <= src && DeriveKey(src, parse) != JStr(src)
  {
    ToJsString(DeriveKey(src, parse))
  }

  /** How a video's `src` determines the text of its key. */
  type KeyFn = string -> Option<string>

  /** The key text of every source, for one parser. */
  function KeyTextOf(parse: Parser): (keyText: KeyFn)
    ensures forall src :: keyText(src) == KeyText(src, parse)
  {
    src => KeyText(src, parse)
  }

  /** The payload `{"location": {"access_hash": hash}}`. */
  function LocationPayload(hash: Json): Json {
    JObj(map["location" := JObj(map["access_hash" := hash])])
  }

  /**
   * A stream source whose payload parses to an object with an object
   * `location` carrying a non-empty string access hash has that hash as its
   * key, not the source; other fields of the payload play no part.
   */
  lemma StreamKeyIsAccessHash(encoded: string, hash: string, parse: Parser, p: Json)
    requires hash != ""
    requires parse(encoded) == Some(p)
    requires p.JObj? && "location" in p.fields && p.fields["location"].JObj?
    requires "access_hash" in p.fields["location"].fields
    requires p.fields["location"].fields["access_hash"] == JStr(hash)
    ensures DeriveKey(StreamPrefix + encoded, parse) == JStr(hash)
    ensures KeyText(StreamPrefix + encoded, parse) == Some(hash)
  {
    assert Payload(StreamPrefix + encoded) == encoded;
  }

  /** A source that is not a stream source is its own key. */
  lemma PlainSourceIsItsOwnKey(src: string, parse: Parser)
    requires |src| < |StreamPrefix| || src[..|StreamPrefix|] != StreamPrefix
    ensures DeriveKey(src, parse) == JStr(src)
    ensures KeyText(src, parse) == Some(src)
  {
  }

  /**
   * A number and a string with the same text give the same key text: the
   * script keeps the raw access hash and converts it only when building strings.
   */
  lemma NumericAndStringHashesCollide(encodedA: string, encodedB: string, parse: Parser)
    requires parse(encodedA) == Some(LocationPayload(JNum(42)))
    requires parse(encodedB) == Some(LocationPayload(JStr("42")))
    ensures DeriveKey(StreamPrefix + encodedA, parse) != DeriveKey(StreamPrefix + encodedB, parse)
    ensures KeyText(StreamPrefix + encodedA, parse) == KeyText(StreamPrefix + encodedB, parse) == Some("42")
  {
    LocationHashIsKey(encodedA, parse, JNum(42));
    LocationHashIsKey(encodedB, parse, JStr("42"));
    FortyTwoText();
  }

  /** A stream payload of the form `{"location": {"access_hash": hash}}` with a truthy hash has that hash as its key. */
  lemma LocationHashIsKey(encoded: string, parse: Parser, hash: Json)
    requires Truthy(hash) && parse(encoded) == Some(LocationPayload(hash))
    ensures DeriveKey(StreamPrefix + encoded, parse) == hash
    ensures KeyText(StreamPrefix + encoded, parse) == ToJsString(hash)
  {
    assert Payload(StreamPrefix + encoded) == encoded;
  }

  /** The number 42 converts to the text "42". */
  lemma FortyTwoText()
    ensures IntToDecimal(42) == "42"
  {
    assert NatToDecimal(4) == "4";
    assert NatToDecimal(42) == NatToDecimal(4) + [DigitChar(2)];
  }

  /**
   * An access hash that is an object with its own "toString" field is a valid
   * key value whose conversion throws: the video's key has no text.
   */
  lemma ToStringFieldKeyHasNoText(encoded: string, parse: Parser, fields: map<string, Json>)
    requires "toString" in fields
    requires parse(encoded) == Some(LocationPayload(JObj(fields)))
    ensures DeriveKey(StreamPrefix + encoded, parse) == JObj(fields)
    ensures KeyText(StreamPrefix + encoded, parse).None?
  {
    assert Payload(StreamPrefix + encoded) == encoded;
  }

  const FilePrefix: string := "final_frame_"
  const FileSuffix: string := ".png"

  /** The download name of the final frame of the video with key `key`. */
  function FileName(key: string): (name: string)
    ensures FilePrefix <= name
    ensures |name| == |FilePrefix| + |key| + |FileSuffix|
    ensures name[|FilePrefix|..|name| - |FileSuffix|] == key
    ensures name[|name| - |FileSuffix|..] == FileSuffix
  {
    var name := FilePrefix + key + FileSuffix;
    assert name[|FilePrefix|..|name| - |FileSuffix|] == key;
    assert name[|name| - |FileSuffix|..] == FileSuffix;
    name
  }

  /** The key a download name was made from, if it has the shape FileName gives. */
  function KeyOfFileName(name: string): (key: Option<string>)
    ensures key.Some? ==> FileName(key.value) == name
  {
    if |name| >= |FilePrefix| + |FileSuffix| && FilePrefix <= name
       && name[|name| - |FileSuffix|..] == FileSuffix
    then
      var key := name[|FilePrefix|..|name| - |FileSuffix|];
      assert FileName(key) == name by {
        assert name == name[..|FilePrefix|] + key + name[|name| - |FileSuffix|..];
      }
      Some(key)
    else None
  }

  /** Reading the key back from the file name gives the key the name was made from. */
  lemma FileNameRoundTrip(key: string)
    ensures KeyOfFileName(FileName(key)) == Some(key)
  {
  }

  /** Distinct keys are saved under distinct names. */
  lemma FileNameInjective(a: string, b: string)
    requires FileName(a) == FileName(b)
    ensures a == b
  {
  }
}

=== FILE: monitor_spec.dfy ===
/**
 * The monitoring script as a pure state machine: the queue of video elements,
 * the dedup ledger, the `isProcessing` flag, the extraction the processing loop
 * is awaiting, whether the loop has died of an exception, and the downloads
 * written so far. Ghost history (what arrived in the queue, what was taken
 * from it, which keys were extracted, which keys the ledger held when the
 * session began) states FIFO order and at-most-once extraction. The class in VideoMonitor is proved to follow these functions.
 */
module MonitorSpec {
  import opened Wrappers
  import opened KeyDerivation
  import opened DedupLedger

  /** Identity of a live element of the document. */
  type NodeId = nat

  /** The `src` attribute of every video element that has one, at one instant. */
  type Attributes = map<NodeId, string>

  /** `video.getAttribute("src")` is neither null nor the empty string. */
  predicate HasSrc(attrs: Attributes, node: NodeId) {
    node in attrs && attrs[node] != ""
  }

  /** The text of the video's key; None when converting the key to a string throws. */
  function KeyOf(attrs: Attributes, node: NodeId, keyText: KeyFn): Option<string>
    requires HasSrc(attrs, node)
  {
    keyText(attrs[node])
  }

  /**
   * Handling the video throws: its key is read and converted before anything
   * else is done with it (the `"processed_video_" + uniqueKey` lookup).
   */
  predicate Throws(attrs: Attributes, keyText: KeyFn, node: NodeId) {
    HasSrc(attrs, node) && KeyOf(attrs, node, keyText).None?
  }

  /** The filter applied before `videoQueue.push`: a source, and a key not yet in the ledger. */
  predicate Admissible(attrs: Attributes, ledger: Ledger, keyText: KeyFn, node: NodeId) {
    HasSrc(attrs, node) && KeyOf(attrs, node, keyText).Some?
      && !IsProcessed(ledger, KeyOf(attrs, node, keyText).value)
  }

  /** The videos, in document order, that one `forEach` pass pushes onto the queue. */
  function Admit(videos: seq<NodeId>, attrs: Attributes, ledger: Ledger, keyText: KeyFn): (queued: seq<NodeId>)
    ensures |queued| <= |videos|
  {
    if videos == [] then []
    else
      var last := videos[|videos| - 1];
      Admit(videos[..|videos| - 1], attrs, ledger, keyText)
        + (if Admissible(attrs, ledger, keyText, last) then [last] else [])
  }

  /**
   * The videos a `forEach` pass handles before the first one that throws: the
   * exception leaves the callback and ends the pass.
   */
  function BeforeThrow(videos: seq<NodeId>, attrs: Attributes, keyText: KeyFn): (handled: seq<NodeId>)
    ensures handled <= videos
    ensures |handled| < |videos| ==> Throws(attrs, keyText, videos[|handled|])
  {
    if videos == [] || Throws(attrs, keyText, videos[0]) then []
    else [videos[0]] + BeforeThrow(videos[1..], attrs, keyText)
  }

  /** None of the videos a pass handles throws. */
  lemma {:induction false} HandledDoNotThrow(videos: seq<NodeId>, attrs: Attributes, keyText: KeyFn)
    ensures forall v :: v in BeforeThrow(videos, attrs, keyText) ==> !Throws(attrs, keyText, v)
    decreases |videos|
  {
    if videos != [] && !Throws(attrs, keyText, videos[0]) {
      HandledDoNotThrow(videos[1..], attrs, keyText);
    }
  }

  /** A pass over `videos` ends with an exception. */
  predicate ThrowsIn(videos: seq<NodeId>, attrs: Attributes, keyText: KeyFn) {
    |BeforeThrow(videos, attrs, keyText)| < |videos|
  }

  /** A node in a mutation record's `addedNodes`. */
  datatype AddedNode =
    | VideoElement(node: NodeId)          // an element whose tag name is "video"
    | OtherElement(videos: seq<NodeId>)   // any other element, with its descendant videos
    | OtherNode                           // text, comment and other non-element nodes

  /** The videos the observer callback considers for one added node. */
  function NodeVideos(added: AddedNode): seq<NodeId> {
    match added
    case VideoElement(node) => [node]
    case OtherElement(videos) => videos
    case OtherNode => []
  }

  /** The videos the observer callback considers for the first `n` of a list of added nodes, in order. */
  function AddedVideos(nodes: seq<AddedNode>, n: nat): seq<NodeId>
    requires n <= |nodes|
  {
    if n == 0 then [] else AddedVideos(nodes, n - 1) + NodeVideos(nodes[n - 1])
  }

  /** The videos the observer callback considers for the first `n` records of a batch, in order. */
  function MutationVideos(records: seq<seq<AddedNode>>, n: nat): seq<NodeId>
    requires n <= |records|
  {
    if n == 0 then [] else MutationVideos(records, n - 1) + AddedVideos(records[n - 1], |records[n - 1]|)
  }

  datatype Session = Session(
    queue: seq<NodeId>,
    ledger: Ledger,
    isProcessing: bool,
    inFlight: Option<string>,     // key whose capture promise the loop is awaiting
    halted: bool,                 // the loop's promise was rejected: no iteration follows
    downloads: seq<string>,       // names of the files saved, in order
    arrived: seq<NodeId>,         // every element ever pushed, in order
    served: seq<NodeId>,          // every element ever shifted, in order
    extracted: seq<string>,       // keys whose extraction was started, in order
    stored: set<string>)          // keys the ledger held when the session began

  /** A session just after the container was found, before the initial scan. */
  function Init(stored: Ledger): Session {
    Session([], stored, false, None, false, [], [], [], [], stored.Keys)
  }

  /** `videoQueue.push` of each of `pushed`, in order. */
  function Push(s: Session, pushed: seq<NodeId>): Session {
    s.(queue := s.queue + pushed, arrived := s.arrived + pushed)
  }

  /** The filtered pushes of one pass over `videos`, which an exception may cut short. */
  function Enqueue(s: Session, videos: seq<NodeId>, attrs: Attributes, keyText: KeyFn): Session {
    Push(s, Admit(BeforeThrow(videos, attrs, keyText), attrs, s.ledger, keyText))
  }

  /** `processQueue()`: a call while the loop already runs returns at once. */
  function StartQueue(s: Session): (r: Session)
    ensures r.isProcessing
    ensures s.isProcessing ==> r == s
  {
    if s.isProcessing then s else s.(isProcessing := true)
  }

  /**
   * Activation on a found container: initial scan, then the processing loop.
   * An exception in the scan rejects the activating function before it starts
   * the loop; the observer, registered before the scan, stays connected.
   */
  function Activated(stored: Ledger, videos: seq<NodeId>, attrs: Attributes, keyText: KeyFn): Session {
    var scanned := Enqueue(Init(stored), videos, attrs, keyText);
    if ThrowsIn(videos, attrs, keyText) then scanned else StartQueue(scanned)
  }

  /**
   * `processVideoElement` up to its `await`: return when the element has no
   * source or its key is in the ledger; otherwise pause it and start capture.
   * A key that cannot be converted throws out of the element and out of the
   * loop awaiting it, leaving `isProcessing` set.
   */
  function BeginElement(s: Session, node: NodeId, attrs: Attributes, keyText: KeyFn): Session {
    if !HasSrc(attrs, node) then s
    else match KeyOf(attrs, node, keyText)
      case None => s.(halted := true)
      case Some(key) =>
        if IsProcessed(s.ledger, key) then s
        else s.(inFlight := Some(key), extracted := s.extracted + [key])
  }

  /**
   * One iteration of the `while (true)` loop of `processQueue`, up to its first
   * `await`: shift the head of a non-empty queue and begin it; an empty queue
   * only waits. The loop runs only once started, never while it awaits, and
   * never again once it has died.
   */
  function Next(s: Session, attrs: Attributes, keyText: KeyFn): Session {
    if !s.isProcessing || s.halted || s.inFlight.Some? || s.queue == [] then s
    else
      var head := s.queue[0];
      BeginElement(s.(queue := s.queue[1..], served := s.served + [head]), head, attrs, keyText)
  }

  /**
   * The capture promise settles: with a blob the frame is downloaded; with or
   * without one, the key is then marked with the current time.
   */
  function Settle(s: Session, blob: bool, now: int): Session {
    match s.inFlight
    case None => s
    case Some(key) =>
      s.(downloads := s.downloads + (if blob then [FileName(key)] else []),
         ledger := MarkProcessed(s.ledger, key, now),
         inFlight := None)
  }

  /** What can happen next in the page's event loop once the monitor is active. */
  datatype Event =
    | Mutations(records: seq<seq<AddedNode>>, attrs: Attributes)  // MutationObserver callback
    | Iteration(attrs: Attributes)                                 // the loop resumes after a delay
    | Settled(blob: bool, now: int)                                // the capture promise settles

  function Apply(s: Session, e: Event, keyText: KeyFn): Session {
    match e
    case Mutations(records, attrs) => Enqueue(s, MutationVideos(records, |records|), attrs, keyText)
    case Iteration(attrs) => Next(s, attrs, keyText)
    case Settled(blob, now) => Settle(s, blob, now)
  }

  /** Any schedule of events. A capture that never settles is a schedule without its Settled. */
  function Run(s: Session, events: seq<Event>, keyText: KeyFn): Session
    decreases |events|
  {
    if events == [] then s else Run(Apply(s, events[0], keyText), events[1..], keyText)
  }

  predicate NoDup<T(==)>(xs: seq<T>) {
    forall i, j :: 0 <= i < j < |xs| ==> xs[i] != xs[j]
  }

  /** The session invariant. */
  predicate Inv(s: Session) {
    // FIFO: what arrived is what was served followed by what still waits
    && s.arrived == s.served + s.queue
    // the ledger only grows
    && s.stored <= s.ledger.Keys
    // at most one extraction per key, and none of a key processed before the session
    && NoDup(s.extracted)
    && (forall i :: 0 <= i < |s.extracted| ==> s.extracted[i] !in s.stored)
    // every extracted key is marked, except the one being awaited
    && (forall i :: 0 <= i < |s.extracted| ==>
          IsProcessed(s.ledger, s.extracted[i]) || s.inFlight == Some(s.extracted[i]))
    && (s.inFlight.Some? ==>
          !IsProcessed(s.ledger, s.inFlight.value) && s.inFlight.value in s.extracted && s.isProcessing)
    // at most one download per key, and only of extracted, marked keys
    && NoDup(s.downloads)
    && (forall i :: 0 <= i < |s.downloads| ==>
          && KeyOfFileName(s.downloads[i]).Some?
          && IsProcessed(s.ledger, KeyOfFileName(s.downloads[i]).value)
          && KeyOfFileName(s.downloads[i]).value in s.extracted)
    // nothing is taken from the queue before processQueue has started
    && (!s.isProcessing ==> s.served == [] && s.extracted == [])
    // a dead loop awaits nothing
    && (s.halted ==> s.isProcessing && s.inFlight.None?)
  }

  // ---------------------------------------------------------------------------
  // The enqueue filter

  /** One pass over a concatenation pushes the pushes of each part, in order. */
  lemma {:induction false} AdmitAppend(a: seq<NodeId>, b: seq<NodeId>, attrs: Attributes, ledger: Ledger, keyText: KeyFn)
    ensures Admit(a + b, attrs, ledger, keyText) == Admit(a, attrs, ledger, keyText) + Admit(b, attrs, ledger, keyText)
    decreases |b|
  {
    if b == [] {
      assert a + b == a;
    } else {
      var b' := b[..|b| - 1];
      assert (a + b)[..|a + b| - 1] == a + b';
      assert (a + b)[|a + b| - 1] == b[|b| - 1];
      AdmitAppend(a, b', attrs, ledger, keyText);
    }
  }

  /** A pass over a concatenation handles the first part, then the second unless the first threw. */
  lemma {:induction false} BeforeThrowAppend(a: seq<NodeId>, b: seq<NodeId>, attrs: Attributes, keyText: KeyFn)
    ensures BeforeThrow(a + b, attrs, keyText) ==
      if ThrowsIn(a, attrs, keyText) then BeforeThrow(a, attrs, keyText) else a + BeforeThrow(b, attrs, keyText)
    decreases |a|
  {
    if a == [] {
      assert a + b == b;
    } else {
      assert (a + b)[0] == a[0];
      if !Throws(attrs, keyText, a[0]) {
        var tail := a[1..];
        assert BeforeThrow(a + b, attrs, keyText) == [a[0]] + BeforeThrow(tail + b, attrs, keyText) by {
          assert (a + b)[1..] == tail + b;
        }
        assert BeforeThrow(a, attrs, keyText) == [a[0]] + BeforeThrow(tail, attrs, keyText);
        BeforeThrowAppend(tail, b, attrs, keyText);
        assert a == [a[0]] + tail;
      }
    }
  }

  /** A pass over a concatenation throws exactly when a pass over either part does. */
  lemma ThrowsInAppend(a: seq<NodeId>, b: seq<NodeId>, attrs: Attributes, keyText: KeyFn)
    ensures ThrowsIn(a + b, attrs, keyText) == (ThrowsIn(a, attrs, keyText) || ThrowsIn(b, attrs, keyText))
  {
    BeforeThrowAppend(a, b, attrs, keyText);
  }

  lemma PushTwice(s: Session, p: seq<NodeId>, q: seq<NodeId>)
    ensures Push(Push(s, p), q) == Push(s, p + q)
  {
    assert s.queue + p + q == s.queue + (p + q);
    assert s.arrived + p + q == s.arrived + (p + q);
  }

  /** A pass over one video throws when it does, and pushes it when it passes the filter. */
  lemma EnqueueOne(s: Session, node: NodeId, attrs: Attributes, keyText: KeyFn)
    ensures ThrowsIn([node], attrs, keyText) == Throws(attrs, keyText, node)
    ensures Enqueue(s, [node], attrs, keyText) ==
      if Admissible(attrs, s.ledger, keyText, node) then Push(s, [node]) else s
  {
    var handled := BeforeThrow([node], attrs, keyText);
    if Throws(attrs, keyText, node) {
      assert handled == [];
      assert Push(s, []) == s by {
        assert s.queue + [] == s.queue && s.arrived + [] == s.arrived;
      }
    } else {
      assert handled == [node] by {
        assert [node][1..] == [];
      }
      var pushed := Admit([node], attrs, s.ledger, keyText);
      assert pushed == if Admissible(attrs, s.ledger, keyText, node) then [node] else [] by {
        assert [node][..0] == [];
      }
      assert Push(s, []) == s by {
        assert s.queue + [] == s.queue && s.arrived + [] == s.arrived;
      }
    }
  }

  /** Once the first part of a pass throws, the second is never looked at. */
  lemma EnqueueStopsAtThrow(s: Session, a: seq<NodeId>, b: seq<NodeId>, attrs: Attributes, keyText: KeyFn)
    requires ThrowsIn(a, attrs, keyText)
    ensures ThrowsIn(a + b, attrs, keyText)
    ensures Enqueue(s, a + b, attrs, keyText) == Enqueue(s, a, attrs, keyText)
  {
    BeforeThrowAppend(a, b, attrs, keyText);
  }

  /** Two consecutive passes against the same ledger, the first without exception, push what one pass over both pushes. */
  lemma EnqueueConcat(s: Session, a: seq<NodeId>, b: seq<NodeId>, attrs: Attributes, keyText: KeyFn)
    requires !ThrowsIn(a, attrs, keyText)
    ensures ThrowsIn(a + b, attrs, keyText) == ThrowsIn(b, attrs, keyText)
    ensures Enqueue(s, a + b, attrs, keyText) == Enqueue(Enqueue(s, a, attrs, keyText), b, attrs, keyText)
  {
    BeforeThrowAppend(a, b, attrs, keyText);
    var hb := BeforeThrow(b, attrs, keyText);
    assert BeforeThrow(a, attrs, keyText) == a;
    AdmitAppend(a, hb, attrs, s.ledger, keyText);
    PushTwice(s, Admit(a, attrs, s.ledger, keyText), Admit(hb, attrs, s.ledger, keyText));
  }

  /**
   * A pass that gets through `done`, then throws within `more`, has pushed
   * what `done` and `more` push, and never reaches `rest`.
   */
  lemma EnqueueThrowsMidway(s: Session, done: seq<NodeId>, more: seq<NodeId>, rest: seq<NodeId>, attrs: Attributes, keyText: KeyFn)
    requires !ThrowsIn(done, attrs, keyText) && ThrowsIn(more, attrs, keyText)
    ensures ThrowsIn(done + more + rest, attrs, keyText)
    ensures Enqueue(s, done + more + rest, attrs, keyText) == Enqueue(Enqueue(s, done, attrs, keyText), more, attrs, keyText)
  {
    EnqueueConcat(s, done, more, attrs, keyText);
    EnqueueStopsAtThrow(s, done + more, rest, attrs, keyText);
  }

  /** Handling one more added node, after nodes that did not throw, is one more pass over its videos. */
  lemma AddedNodeStep(s: Session, nodes: seq<AddedNode>, j: nat, attrs: Attributes, keyText: KeyFn)
    requires j < |nodes| && !ThrowsIn(AddedVideos(nodes, j), attrs, keyText)
    ensures ThrowsIn(AddedVideos(nodes, j + 1), attrs, keyText) == ThrowsIn(NodeVideos(nodes[j]), attrs, keyText)
    ensures Enqueue(s, AddedVideos(nodes, j + 1), attrs, keyText)
         == Enqueue(Enqueue(s, AddedVideos(nodes, j), attrs, keyText), NodeVideos(nodes[j]), attrs, keyText)
  {
    EnqueueConcat(s, AddedVideos(nodes, j), NodeVideos(nodes[j]), attrs, keyText);
  }

  /** Handling one more mutation record, after records that did not throw, is one more pass over its videos. */
  lemma RecordStep(s: Session, records: seq<seq<AddedNode>>, i: nat, attrs: Attributes, keyText: KeyFn)
    requires i < |records| && !ThrowsIn(MutationVideos(records, i), attrs, keyText)
    ensures ThrowsIn(MutationVideos(records, i + 1), attrs, keyText)
         == ThrowsIn(AddedVideos(records[i], |records[i]|), attrs, keyText)
    ensures Enqueue(s, MutationVideos(records, i + 1), attrs, keyText)
         == Enqueue(Enqueue(s, MutationVideos(records, i), attrs, keyText), AddedVideos(records[i], |records[i]|), attrs, keyText)
  {
    EnqueueConcat(s, MutationVideos(records, i), AddedVideos(records[i], |records[i]|), attrs, keyText);
  }

  /** Once the videos of the first `k` added nodes throw, later nodes add nothing. */
  lemma {:induction false} AddedVideosStopAtThrow(s: Session, nodes: seq<AddedNode>, k: nat, m: nat, attrs: Attributes, keyText: KeyFn)
    requires k <= m <= |nodes| && ThrowsIn(AddedVideos(nodes, k), attrs, keyText)
    ensures ThrowsIn(AddedVideos(nodes, m), attrs, keyText)
    ensures Enqueue(s, AddedVideos(nodes, m), attrs, keyText) == Enqueue(s, AddedVideos(nodes, k), attrs, keyText)
    decreases m
  {
    if k < m {
      AddedVideosStopAtThrow(s, nodes, k, m - 1, attrs, keyText);
      EnqueueStopsAtThrow(s, AddedVideos(nodes, m - 1), NodeVideos(nodes[m - 1]), attrs, keyText);
    }
  }

  /** Once the videos of the first `k` records throw, later records add nothing. */
  lemma {:induction false} MutationVideosStopAtThrow(s: Session, records: seq<seq<AddedNode>>, k: nat, m: nat, attrs: Attributes, keyText: KeyFn)
    requires k <= m <= |records| && ThrowsIn(MutationVideos(records, k), attrs, keyText)
    ensures ThrowsIn(MutationVideos(records, m), attrs, keyText)
    ensures Enqueue(s, MutationVideos(records, m), attrs, keyText) == Enqueue(s, MutationVideos(records, k), attrs, keyText)
    decreases m
  {
    if k < m {
      MutationVideosStopAtThrow(s, records, k, m - 1, attrs, keyText);
      EnqueueStopsAtThrow(s, MutationVideos(records, m - 1), AddedVideos(records[m - 1], |records[m - 1]|), attrs, keyText);
    }
  }

  /** A list of videos: those before video `i`, it, those after. */
  lemma VideosAround(videos: seq<NodeId>, i: nat)
    requires i < |videos|
    ensures videos[..i + 1] == videos[..i] + [videos[i]]
    ensures videos == videos[..i] + [videos[i]] + videos[i + 1..]
  {
  }

  /** An element is pushed exactly when it is among the videos and passes the filter. */
  lemma {:induction false} AdmitMembers(videos: seq<NodeId>, attrs: Attributes, ledger: Ledger, keyText: KeyFn, x: NodeId)
    ensures x in Admit(videos, attrs, ledger, keyText) <==> x in videos && Admissible(attrs, ledger, keyText, x)
  {
    if videos != [] {
      var init := videos[..|videos| - 1];
      AdmitMembers(init, attrs, ledger, keyText, x);
      assert videos == init + [videos[|videos| - 1]];
    }
  }

  /** Number of the videos whose key the ledger already holds. */
  function CountProcessed(videos: seq<NodeId>, attrs: Attributes, ledger: Ledger, keyText: KeyFn): nat {
    if videos == [] then 0
    else
      var v := videos[0];
      (if HasSrc(attrs, v) && KeyOf(attrs, v, keyText).Some? && IsProcessed(ledger, KeyOf(attrs, v, keyText).value)
       then 1 else 0)
        + CountProcessed(videos[1..], attrs, ledger, keyText)
  }

  /** Of N videos that all have a source and a key, M of them already processed, N - M pass the filter. */
  lemma {:induction false} AdmitCount(videos: seq<NodeId>, attrs: Attributes, ledger: Ledger, keyText: KeyFn)
    requires forall v :: v in videos ==> HasSrc(attrs, v) && !Throws(attrs, keyText, v)
    ensures |Admit(videos, attrs, ledger, keyText)| == |videos| - CountProcessed(videos, attrs, ledger, keyText)
  {
    if videos != [] {
      var v := videos[0];
      AdmitAppend([v], videos[1..], attrs, ledger, keyText);
      assert [v] + videos[1..] == videos;
      assert [v][..0] == [];
      AdmitCount(videos[1..], attrs, ledger, keyText);
    }
  }

  /**
   * The initial scan of N videos that all have a source, M of them already
   * processed, queues N - M of them when no key throws; otherwise it queues
   * that count for the videos before the first throwing one.
   */
  lemma ScanCount(stored: Ledger, videos: seq<NodeId>, attrs: Attributes, keyText: KeyFn)
    requires forall v :: v in videos ==> HasSrc(attrs, v)
    ensures var handled := BeforeThrow(videos, attrs, keyText);
      && |Activated(stored, videos, attrs, keyText).queue| == |handled| - CountProcessed(handled, attrs, stored, keyText)
      && (!ThrowsIn(videos, attrs, keyText) ==> handled == videos)
  {
    var handled := BeforeThrow(videos, attrs, keyText);
    HandledDoNotThrow(videos, attrs, keyText);
    assert forall v :: v in handled ==> v in videos;
    AdmitCount(handled, attrs, stored, keyText);
  }

  /** The same element reported twice in one pass is pushed twice: the queue may hold duplicates. */
  lemma DuplicateReportsArePushedTwice(node: NodeId, attrs: Attributes, ledger: Ledger, keyText: KeyFn)
    requires Admissible(attrs, ledger, keyText, node)
    ensures BeforeThrow([node, node], attrs, keyText) == [node, node]
    ensures Admit([node, node], attrs, ledger, keyText) == [node, node]
  {
  }

  /** A video without a source is never pushed, never extracted and never marked. */
  lemma NoSourceIsIgnored(s: Session, videos: seq<NodeId>, attrs: Attributes, keyText: KeyFn, node: NodeId)
    requires !HasSrc(attrs, node)
    ensures node !in Admit(videos, attrs, s.ledger, keyText)
    ensures BeginElement(s, node, attrs, keyText) == s
  {
  }

  /** An element whose key is in the ledger is neither paused, extracted nor marked again. */
  lemma ProcessedKeyIsSkipped(s: Session, node: NodeId, attrs: Attributes, keyText: KeyFn)
    requires HasSrc(attrs, node) && KeyOf(attrs, node, keyText).Some?
    requires IsProcessed(s.ledger, KeyOf(attrs, node, keyText).value)
    ensures BeginElement(s, node, attrs, keyText) == s
  {
  }

  /**
   * Once the capture settles the key is marked, whether a blob was produced or
   * not; a file is saved exactly when there was a blob.
   */
  lemma SettleMarksEitherWay(s: Session, blob: bool, now: int)
    requires s.inFlight.Some?
    ensures var r := Settle(s, blob, now);
      && r.inFlight.None?
      && IsProcessed(r.ledger, s.inFlight.value) && r.ledger[s.inFlight.value] == now
      && r.downloads == s.downloads + (if blob then [FileName(s.inFlight.value)] else [])
      && r.queue == s.queue && r.extracted == s.extracted
  {
  }

  // ---------------------------------------------------------------------------
  // The invariant holds throughout every schedule

  lemma InitInv(stored: Ledger)
    ensures Inv(Init(stored))
  {
  }

  lemma EnqueueKeepsInv(s: Session, videos: seq<NodeId>, attrs: Attributes, keyText: KeyFn)
    requires Inv(s)
    ensures Inv(Enqueue(s, videos, attrs, keyText))
  {
  }

  lemma StartQueueKeepsInv(s: Session)
    requires Inv(s)
    ensures Inv(StartQueue(s))
  {
  }

  lemma NextKeepsInv(s: Session, attrs: Attributes, keyText: KeyFn)
    requires Inv(s)
    ensures Inv(Next(s, attrs, keyText))
  {
  }

  lemma SettleKeepsInv(s: Session, blob: bool, now: int)
    requires Inv(s)
    ensures Inv(Settle(s, blob, now))
  {
  }

  lemma ApplyKeepsInv(s: Session, e: Event, keyText: KeyFn)
    requires Inv(s)
    ensures Inv(Apply(s, e, keyText))
  {
    match e
    case Mutations(records, attrs) => EnqueueKeepsInv(s, MutationVideos(records, |records|), attrs, keyText);
    case Iteration(attrs) => NextKeepsInv(s, attrs, keyText);
    case Settled(blob, now) => SettleKeepsInv(s, blob, now);
  }

  lemma {:induction false} RunKeepsInv(s: Session, events: seq<Event>, keyText: KeyFn)
    requires Inv(s)
    ensures Inv(Run(s, events, keyText))
    decreases |events|
  {
    if events != [] {
      ApplyKeepsInv(s, events[0], keyText);
      RunKeepsInv(Apply(s, events[0], keyText), events[1..], keyText);
    }
  }

  lemma ActivatedInv(stored: Ledger, videos: seq<NodeId>, attrs: Attributes, keyText: KeyFn)
    ensures Inv(Activated(stored, videos, attrs, keyText))
  {
  }

  /**
   * Whatever the schedule of mutations, loop iterations and capture outcomes:
   * each key is extracted at most once and saved at most once, a key the
   * ledger held at activation is never extracted, and elements leave the queue
   * in the order they entered it.
   */
  lemma AtMostOnceInArrivalOrder(stored: Ledger, videos: seq<NodeId>, attrs: Attributes, keyText: KeyFn, events: seq<Event>)
    ensures var s := Run(Activated(stored, videos, attrs, keyText), events, keyText);
      && NoDup(s.extracted)
      && NoDup(s.downloads)
      && (forall i :: 0 <= i < |s.extracted| ==> s.extracted[i] !in stored)
      && s.served <= s.arrived
  {
    ActivatedInv(stored, videos, attrs, keyText);
    RunKeepsInv(Activated(stored, videos, attrs, keyText), events, keyText);
    RunKeepsStored(Activated(stored, videos, attrs, keyText), events, keyText);
  }

  /** The keys recorded before the session are part of its identity: no event changes them. */
  lemma {:induction false} RunKeepsStored(s: Session, events: seq<Event>, keyText: KeyFn)
    ensures Run(s, events, keyText).stored == s.stored
    decreases |events|
  {
    if events != [] {
      RunKeepsStored(Apply(s, events[0], keyText), events[1..], keyText);
    }
  }

  /** Ledger entries are never removed, and an entry once written keeps its timestamp. */
  lemma {:induction false} LedgerEntriesPersist(s: Session, events: seq<Event>, keyText: KeyFn)
    requires Inv(s)
    ensures var r := Run(s, events, keyText);
      forall k :: k in s.ledger ==> k in r.ledger && r.ledger[k] == s.ledger[k]
    decreases |events|
  {
    if events != [] {
      var t := Apply(s, events[0], keyText);
      ApplyKeepsInv(s, events[0], keyText);
      assert forall k :: k in s.ledger ==> k in t.ledger && t.ledger[k] == s.ledger[k];
      LedgerEntriesPersist(t, events[1..], keyText);
    }
  }

  // ---------------------------------------------------------------------------
  // A key that cannot be converted

  /**
   * A loop that never started, or that died, and awaits nothing: no event
   * takes anything from the queue, extracts, saves or marks any more.
   */
  predicate Stalled(s: Session) {
    (!s.isProcessing || s.halted) && s.inFlight.None?
  }

  lemma {:induction false} StalledStaysStalled(s: Session, events: seq<Event>, keyText: KeyFn)
    requires Stalled(s)
    ensures var r := Run(s, events, keyText);
      && Stalled(r) && r.isProcessing == s.isProcessing && r.halted == s.halted
      && r.served == s.served && r.extracted == s.extracted
      && r.downloads == s.downloads && r.ledger == s.ledger
    decreases |events|
  {
    if events != [] {
      StalledStaysStalled(Apply(s, events[0], keyText), events[1..], keyText);
    }
  }

  /**
   * An initial scan that meets a key which cannot be converted never starts the
   * loop: later mutations still queue elements, but none is ever processed.
   */
  lemma FailedScanNeverProcesses(stored: Ledger, videos: seq<NodeId>, attrs: Attributes, keyText: KeyFn, events: seq<Event>)
    requires ThrowsIn(videos, attrs, keyText)
    ensures var r := Run(Activated(stored, videos, attrs, keyText), events, keyText);
      && !r.isProcessing && r.served == [] && r.extracted == [] && r.downloads == [] && r.ledger == stored
  {
    StalledStaysStalled(Activated(stored, videos, attrs, keyText), events, keyText);
  }

  /**
   * The loop shifting an element whose key cannot be converted dies: the
   * element is consumed, nothing is extracted or marked, and no event after
   * that takes anything from the queue.
   */
  lemma UnconvertibleHeadHaltsLoop(s: Session, attrs: Attributes, keyText: KeyFn, events: seq<Event>)
    requires Inv(s) && s.isProcessing && !s.halted && s.inFlight.None? && s.queue != []
    requires Throws(attrs, keyText, s.queue[0])
    ensures var h := Next(s, attrs, keyText);
      && h.halted && h.queue == s.queue[1..] && h.served == s.served + [s.queue[0]]
      && h.extracted == s.extracted && h.ledger == s.ledger
    ensures var r := Run(Next(s, attrs, keyText), events, keyText);
      && r.served == s.served + [s.queue[0]] && r.extracted == s.extracted
      && r.downloads == s.downloads && r.ledger == s.ledger
  {
    StalledStaysStalled(Next(s, attrs, keyText), events, keyText);
  }

  // ---------------------------------------------------------------------------
  // End-to-end scenarios

  lemma RunStep(s: Session, events: seq<Event>, keyText: KeyFn)
    requires events != []
    ensures Run(s, events, keyText) == Run(Apply(s, events[0], keyText), events[1..], keyText)
  {
  }

  /** A schedule of five events applies them one after the other. */
  lemma RunFive(s: Session, e1: Event, e2: Event, e3: Event, e4: Event, e5: Event, keyText: KeyFn)
    ensures Run(s, [e1, e2, e3, e4, e5], keyText)
         == Apply(Apply(Apply(Apply(Apply(s, e1, keyText), e2, keyText), e3, keyText), e4, keyText), e5, keyText)
  {
    var events := [e1, e2, e3, e4, e5];
    var s1 := Apply(s, e1, keyText);
    var s2 := Apply(s1, e2, keyText);
    var s3 := Apply(s2, e3, keyText);
    var s4 := Apply(s3, e4, keyText);
    RunStep(s, events, keyText);
    RunStep(s1, events[1..], keyText);
    RunStep(s2, events[2..], keyText);
    RunStep(s3, events[3..], keyText);
    RunStep(s4, events[4..], keyText);
    assert events[4..][1..] == [];
  }

  /** A scan over one video with a fresh key, on an empty ledger, queues it and starts the loop. */
  lemma ScanOneFresh(node: NodeId, attrs: Attributes, keyText: KeyFn, key: string)
    requires HasSrc(attrs, node) && KeyOf(attrs, node, keyText) == Some(key)
    ensures Activated(map[], [node], attrs, keyText) == Init(map[]).(queue := [node], isProcessing := true, arrived := [node])
  {
    EnqueueOne(Init(map[]), node, attrs, keyText);
  }

  /** The first iteration over that queue shifts the video and begins extracting its key. */
  lemma IterateOneFresh(node: NodeId, attrs: Attributes, keyText: KeyFn, key: string)
    requires HasSrc(attrs, node) && KeyOf(attrs, node, keyText) == Some(key)
    ensures Apply(Init(map[]).(queue := [node], isProcessing := true, arrived := [node]), Iteration(attrs), keyText)
         == Init(map[]).(isProcessing := true, inFlight := Some(key), arrived := [node], served := [node], extracted := [key])
  {
  }

  /**
   * One video with a source and a convertible key, on an empty ledger: after one
   * loop iteration and a successful capture, the ledger holds exactly its key
   * and exactly one file, named after that key, was saved.
   */
  lemma OneFreshVideo(node: NodeId, attrs: Attributes, keyText: KeyFn, key: string, now: int)
    requires HasSrc(attrs, node) && KeyOf(attrs, node, keyText) == Some(key)
    ensures var s := Run(Activated(map[], [node], attrs, keyText), [Iteration(attrs), Settled(true, now)], keyText);
      && s.ledger == map[key := now]
      && s.downloads == [FileName(key)]
      && s.extracted == [key]
      && s.queue == []
  {
    var s0 := Init(map[]).(queue := [node], isProcessing := true, arrived := [node]);
    ScanOneFresh(node, attrs, keyText, key);
    var s1 := Init(map[]).(isProcessing := true, inFlight := Some(key), arrived := [node], served := [node], extracted := [key]);
    IterateOneFresh(node, attrs, keyText, key);
    var s2 := Init(map[]).(ledger := map[key := now], isProcessing := true, downloads := [FileName(key)], arrived := [node], served := [node], extracted := [key]);
    assert Apply(s1, Settled(true, now), keyText) == s2;
    RunStep(s0, [Iteration(attrs), Settled(true, now)], keyText);
    RunStep(s1, [Settled(true, now)], keyText);
    assert [Iteration(attrs), Settled(true, now)][1..] == [Settled(true, now)];
  }

  /**
   * One stream video whose payload carries the access hash "abc123": after one
   * loop iteration and a successful capture, the ledger holds "abc123" and
   * exactly one file, final_frame_abc123.png, was saved.
   */
  lemma SingleStreamVideo(encoded: string, parse: Parser, node: NodeId, now: int)
    requires parse(encoded) == Some(LocationPayload(JsonValue.JStr("abc123")))
    ensures var attrs := map[node := StreamPrefix + encoded];
      var keyText := KeyTextOf(parse);
      var s := Run(Activated(map[], [node], attrs, keyText), [Iteration(attrs), Settled(true, now)], keyText);
      && s.ledger == map["abc123" := now]
      && s.downloads == [FileName("abc123")]
      && s.extracted == ["abc123"]
      && s.queue == []
  {
    var attrs := map[node := StreamPrefix + encoded];
    var keyText := KeyTextOf(parse);
    assert KeyOf(attrs, node, keyText) == Some("abc123") by {
      StreamKeyIsAccessHash(encoded, "abc123", parse, LocationPayload(JsonValue.JStr("abc123")));
    }
    OneFreshVideo(node, attrs, keyText, "abc123", now);
  }

  /** Two mutation records each adding the same video element with a source. */
  lemma DuplicateRecordsQueueTwice(node: NodeId, src: string, keyText: KeyFn)
    requires src != "" && keyText(src).Some?
    ensures var attrs := map[node := src];
      Apply(Activated(map[], [], attrs, keyText), Mutations([[VideoElement(node)], [VideoElement(node)]], attrs), keyText)
        == Init(map[]).(queue := [node, node], isProcessing := true, arrived := [node, node])
  {
    var attrs := map[node := src];
    var records := [[VideoElement(node)], [VideoElement(node)]];
    assert AddedVideos([VideoElement(node)], 1) == [node];
    assert MutationVideos(records, 1) == [node];
    assert MutationVideos(records, |records|) == [node, node];
    assert Admit([], attrs, map[], keyText) == [];
    var s0 := Activated(map[], [], attrs, keyText);
    assert s0 == Init(map[]).(isProcessing := true);
    DuplicateReportsArePushedTwice(node, attrs, s0.ledger, keyText);
  }

  /** The first of two queued copies of a video with a fresh key is shifted and begun. */
  lemma FirstCopyBegins(node: NodeId, attrs: Attributes, keyText: KeyFn, key: string)
    requires HasSrc(attrs, node) && KeyOf(attrs, node, keyText) == Some(key)
    ensures Apply(Init(map[]).(queue := [node, node], isProcessing := true, arrived := [node, node]), Iteration(attrs), keyText)
         == Init(map[]).(queue := [node], isProcessing := true, inFlight := Some(key), arrived := [node, node], served := [node], extracted := [key])
  {
    assert [node, node][1..] == [node];
  }

  /** The second copy, once the first was recorded, is shifted and skipped by the ledger check. */
  lemma SecondCopySkipped(node: NodeId, attrs: Attributes, keyText: KeyFn, key: string, t1: int)
    requires HasSrc(attrs, node) && KeyOf(attrs, node, keyText) == Some(key)
    ensures Apply(Init(map[]).(queue := [node], ledger := map[key := t1], isProcessing := true, downloads := [FileName(key)],
                               arrived := [node, node], served := [node], extracted := [key]), Iteration(attrs), keyText)
         == Init(map[]).(ledger := map[key := t1], isProcessing := true, downloads := [FileName(key)], arrived := [node, node], served := [node, node], extracted := [key])
  {
  }

  /**
   * The same video element is reported by two mutation records before it is
   * processed: it is queued twice, but extracted once, saved once and recorded
   * once; the second copy is skipped by the ledger check.
   */
  lemma DuplicateNotification(node: NodeId, src: string, keyText: KeyFn, t1: int, t2: int)
    requires src != "" && keyText(src).Some?
    ensures var attrs := map[node := src];
      var key := keyText(src).value;
      var s := Run(Activated(map[], [], attrs, keyText),
                   [Mutations([[VideoElement(node)], [VideoElement(node)]], attrs),
                    Iteration(attrs), Settled(true, t1), Iteration(attrs), Settled(true, t2)], keyText);
      && s.served == [node, node]
      && s.extracted == [key]
      && s.downloads == [FileName(key)]
      && s.ledger == map[key := t1]
      && s.queue == []
  {
    var attrs := map[node := src];
    var key := keyText(src).value;
    var records := [[VideoElement(node)], [VideoElement(node)]];
    var s0 := Activated(map[], [], attrs, keyText);
    DuplicateRecordsQueueTwice(node, src, keyText);
    var s1 := Init(map[]).(queue := [node, node], isProcessing := true, arrived := [node, node]);
    assert Apply(s0, Mutations(records, attrs), keyText) == s1;
    assert KeyOf(attrs, node, keyText) == Some(key);
    var s2 := Init(map[]).(queue := [node], isProcessing := true, inFlight := Some(key), arrived := [node, node], served := [node], extracted := [key]);
    FirstCopyBegins(node, attrs, keyText, key);
    var s3 := Init(map[]).(queue := [node], ledger := map[key := t1], isProcessing := true, downloads := [FileName(key)], arrived := [node, node], served := [node], extracted := [key]);
    assert Apply(s2, Settled(true, t1), keyText) == s3;
    var s4 := Init(map[]).(ledger := map[key := t1], isProcessing := true, downloads := [FileName(key)], arrived := [node, node], served := [node, node], extracted := [key]);
    SecondCopySkipped(node, attrs, keyText, key, t1);
    assert Apply(s4, Settled(true, t2), keyText) == s4;
    RunFive(s0, Mutations(records, attrs), Iteration(attrs), Settled(true, t1), Iteration(attrs), Settled(true, t2), keyText);
  }
}

=== FILE: video_monitor.dfy ===
/**
 * The monitoring script's mutable state and its operations, in the form the
 * script has them: `videoQueue` is appended to by `push` and consumed by
 * `shift`, `isProcessing` is a flag, and the ledger is written in place. An
 * exception is a `threw` result that the caller passes on. Each
 * method is proved to take the session from its old abstract state to the one
 * the matching MonitorSpec function gives, and to keep MonitorSpec.Inv.
 */
module VideoMonitor {
  import opened Wrappers
  import opened JsonValue
  import opened KeyDerivation
  import opened DedupLedger
  import opened MonitorSpec

  class Monitor {
    /** `decodeURIComponent` followed by `JSON.parse`, None where either throws. */
    const parse: Parser

    var queue: seq<NodeId>
    var ledger: Ledger
    var isProcessing: bool
    /** The key whose capture promise the processing loop is awaiting. */
    var inFlight: Option<string>
    /** Names of the files downloaded so far. */
    var downloads: seq<string>

    /** The promise of `processQueue` was rejected: the loop never resumes. */
    ghost var halted: bool
    ghost var arrived: seq<NodeId>
    ghost var served: seq<NodeId>
    ghost var extracted: seq<string>
    ghost var stored: set<string>

    ghost function State(): Session
      reads this
    {
      Session(queue, ledger, isProcessing, inFlight, halted, downloads, arrived, served, extracted, stored)
    }

    ghost predicate Valid()
      reads this
    {
      Inv(State())
    }

    /** A fresh session over the ledger that storage already holds. */
    constructor (parse: Parser, storedLedger: Ledger)
      ensures this.parse == parse
      ensures State() == Init(storedLedger) && Valid()
    {
      this.parse := parse;
      queue, ledger, isProcessing, inFlight, downloads := [], storedLedger, false, None, [];
      halted := false;
      arrived, served, extracted, stored := [], [], [], storedLedger.Keys;
      new;
      InitInv(storedLedger);
    }

    /**
     * Push `node` onto the queue when it has a source whose key is not in the
     * ledger; `threw` when converting the key for the ledger lookup throws.
     */
    method EnqueueIfNew(node: NodeId, attrs: Attributes) returns (threw: bool)
      requires Valid()
      modifies this
      ensures Valid()
      ensures threw == ThrowsIn([node], attrs, KeyTextOf(parse))
      ensures State() == Enqueue(old(State()), [node], attrs, KeyTextOf(parse))
    {
      EnqueueOne(State(), node, attrs, KeyTextOf(parse));
      EnqueueKeepsInv(State(), [node], attrs, KeyTextOf(parse));
      threw := false;
      if node in attrs && attrs[node] != "" {
        var key := DeriveKey(attrs[node], parse);
        var text := ToJsString(key);
        if text.None? {
          threw := true;
        } else if text.value !in ledger {
          queue := queue + [node];
          arrived := arrived + [node];
        }
      }
    }

    /**
     * The `forEach` over a list of videos, each filtered and pushed in order,
     * until one of them throws.
     */
    method EnqueueAll(videos: seq<NodeId>, attrs: Attributes) returns (threw: bool)
      requires Valid()
      modifies this
      ensures Valid()
      ensures threw == ThrowsIn(videos, attrs, KeyTextOf(parse))
      ensures State() == Enqueue(old(State()), videos, attrs, KeyTextOf(parse))
    {
      EnqueueKeepsInv(old(State()), [], attrs, KeyTextOf(parse));
      threw := false;
      for i := 0 to |videos|
        invariant Valid() && !threw
        invariant !ThrowsIn(videos[..i], attrs, KeyTextOf(parse))
        invariant State() == Enqueue(old(State()), videos[..i], attrs, KeyTextOf(parse))
      {
        threw := EnqueueIfNew(videos[i], attrs);
        VideosAround(videos, i);
        if threw {
          EnqueueThrowsMidway(old(State()), videos[..i], [videos[i]], videos[i + 1..], attrs, KeyTextOf(parse));
          return;
        }
        EnqueueConcat(old(State()), videos[..i], [videos[i]], attrs, KeyTextOf(parse));
      }
      assert videos[..|videos|] == videos;
    }

    /**
     * The observer's handling of one added node: a video element is considered
     * itself, another element through its descendant videos, and a node that is
     * not an element not at all.
     */
    method OnAddedNode(added: AddedNode, attrs: Attributes) returns (threw: bool)
      requires Valid()
      modifies this
      ensures Valid()
      ensures threw == ThrowsIn(NodeVideos(added), attrs, KeyTextOf(parse))
      ensures State() == Enqueue(old(State()), NodeVideos(added), attrs, KeyTextOf(parse))
    {
      match added {
        case VideoElement(node) =>
          threw := EnqueueIfNew(node, attrs);
        case OtherElement(videos) =>
          if |videos| > 0 {
            threw := EnqueueAll(videos, attrs);
          } else {
            threw := false;
            EnqueueKeepsInv(old(State()), [], attrs, KeyTextOf(parse));
          }
        case OtherNode =>
          threw := false;
          EnqueueKeepsInv(old(State()), [], attrs, KeyTextOf(parse));
      }
    }

    /** The `forEach` over one mutation record's `addedNodes`, until one of them throws. */
    method OnAddedNodes(nodes: seq<AddedNode>, attrs: Attributes) returns (threw: bool)
      requires Valid()
      modifies this
      ensures Valid()
      ensures threw == ThrowsIn(AddedVideos(nodes, |nodes|), attrs, KeyTextOf(parse))
      ensures State() == Enqueue(old(State()), AddedVideos(nodes, |nodes|), attrs, KeyTextOf(parse))
    {
      EnqueueKeepsInv(old(State()), [], attrs, KeyTextOf(parse));
      threw := false;
      for j := 0 to |nodes|
        invariant Valid() && !threw
        invariant !ThrowsIn(AddedVideos(nodes, j), attrs, KeyTextOf(parse))
        invariant State() == Enqueue(old(State()), AddedVideos(nodes, j), attrs, KeyTextOf(parse))
      {
        threw := OnAddedNode(nodes[j], attrs);
        AddedNodeStep(old(State()), nodes, j, attrs, KeyTextOf(parse));
        if threw {
          AddedVideosStopAtThrow(old(State()), nodes, j + 1, |nodes|, attrs, KeyTextOf(parse));
          return;
        }
      }
    }

    /**
     * The MutationObserver callback: the `forEach` over a batch of mutation
     * records. An exception ends the callback and drops the rest of the batch.
     */
    method OnMutations(records: seq<seq<AddedNode>>, attrs: Attributes)
      requires Valid()
      modifies this
      ensures Valid()
      ensures State() == Enqueue(old(State()), MutationVideos(records, |records|), attrs, KeyTextOf(parse))
    {
      EnqueueKeepsInv(old(State()), [], attrs, KeyTextOf(parse));
      for i := 0 to |records|
        invariant Valid()
        invariant !ThrowsIn(MutationVideos(records, i), attrs, KeyTextOf(parse))
        invariant State() == Enqueue(old(State()), MutationVideos(records, i), attrs, KeyTextOf(parse))
      {
        var threw := OnAddedNodes(records[i], attrs);
        RecordStep(old(State()), records, i, attrs, KeyTextOf(parse));
        if threw {
          MutationVideosStopAtThrow(old(State()), records, i + 1, |records|, attrs, KeyTextOf(parse));
          return;
        }
      }
    }

    /** `processQueue()`: starts the loop unless it is already running. */
    method ProcessQueue() returns (started: bool)
      requires Valid()
      modifies this
      ensures Valid()
      ensures started == !old(isProcessing)
      ensures State() == StartQueue(old(State()))
    {
      if isProcessing {
        return false;
      }
      isProcessing := true;
      started := true;
      StartQueueKeepsInv(old(State()));
    }

    /**
     * `processVideoElement` up to its `await`: return when the element has no
     * source or its key is in the ledger; otherwise pause the video and start
     * the capture, whose outcome CaptureSettled delivers. `threw` when the key
     * cannot be converted for the ledger lookup; nothing has changed then.
     */
    method ProcessVideoElement(node: NodeId, attrs: Attributes) returns (threw: bool)
      modifies this
      ensures threw == Throws(attrs, KeyTextOf(parse), node)
      ensures State() == if threw then old(State()) else BeginElement(old(State()), node, attrs, KeyTextOf(parse))
    {
      threw := false;
      if !(node in attrs && attrs[node] != "") {
        return;
      }
      var key := DeriveKey(attrs[node], parse);
      var text := ToJsString(key);
      if text.None? {
        return true;
      }
      if text.value in ledger {
        return;
      }
      inFlight := Some(text.value);
      extracted := extracted + [text.value];
    }

    /**
     * One iteration of the processing loop, up to its first `await`. An
     * exception from the element rejects the loop's promise: it never resumes.
     */
    method RunIteration(attrs: Attributes)
      requires Valid() && isProcessing && !halted && inFlight.None?
      modifies this
      ensures Valid()
      ensures State() == Next(old(State()), attrs, KeyTextOf(parse))
    {
      if |queue| > 0 {
        var video := queue[0];
        queue := queue[1..];
        served := served + [video];
        var threw := ProcessVideoElement(video, attrs);
        if threw {
          halted := true;
        }
      }
      NextKeepsInv(old(State()), attrs, KeyTextOf(parse));
    }

    /**
     * The capture promise settles: on a blob the frame is downloaded as
     * `final_frame_<key>.png`; then, blob or not, the key is marked processed.
     */
    method CaptureSettled(blob: bool, now: int)
      requires Valid() && inFlight.Some?
      modifies this
      ensures Valid()
      ensures State() == Settle(old(State()), blob, now)
    {
      var key := inFlight.value;
      if blob {
        downloads := downloads + [FileName(key)];
      }
      ledger := MarkProcessed(ledger, key, now);
      inFlight := None;
      SettleKeepsInv(old(State()), blob, now);
    }
  }

  /**
   * The script's entry point: with no container it returns before creating
   * anything; otherwise it scans the container's videos and starts the loop,
   * unless the scan threw.
   */
  method Activate(parse: Parser, storedLedger: Ledger, container: Option<seq<NodeId>>, attrs: Attributes)
    returns (monitor: Option<Monitor>)
    ensures monitor.None? <==> container.None?
    ensures monitor.Some? ==>
      && fresh(monitor.value)
      && monitor.value.Valid()
      && monitor.value.parse == parse
      && monitor.value.State() == Activated(storedLedger, container.value, attrs, KeyTextOf(parse))
      && (monitor.value.isProcessing <==> !ThrowsIn(container.value, attrs, KeyTextOf(parse)))
  {
    if container.None? {
      return None;
    }
    var m := new Monitor(parse, storedLedger);
    var threw := m.EnqueueAll(container.value, attrs);
    if !threw {
      var _ := m.ProcessQueue();
    }
    return Some(m);
  }
}

=== FILE: wrappers.dfy ===
/** Optional values: the outcome of a lookup or of a parse that may fail. */
module Wrappers {

  datatype Option<+T> = None | Some(value: T)
}
